=== FILE: README.md ===
# nextclade_data index builder, modelled in Dafny

`scripts/index.py` turns the dataset tree of the repository into the published
layout. For each `dataset.json` it reads every `metadata.json` below it, one
per version. It sorts the versions newest first by their `datetime`, writes a
`tag.json` for each version, copies and zips the files, mirrors the newest
version into `latest/` and rewrites every version record with its public URLs.
Finally it writes `index.json`, which holds the settings, the friendly name of
the default dataset and every dataset with its versions.

This project models the decisions of that script with the filesystem taken
out. The input is `settings.json` and a sequence of datasets, each with its
version descriptors, in the order the walk finds them. The output is the index
document together with, for every version, the values the script derives:
URLs, directories, the `tag.json` contents, the updated record and the
`latest` mirror. The errors the script raises on the values it reads (a
missing key, a malformed field) are modelled as `Err`, so on such input the
model produces the error that ends the script. Errors raised by the filesystem
are not modelled; one of them, a `latest` mirror whose destination already
exists, is decided by the values read and is named under "Left out".

- `json.dfy` (`Json`): decoded JSON values and dictionaries; `d[key]`; the
  `{**a, **b}` merge; the error kinds.
- `lex.dfy` (`Lex`): Python's `str` ordering, and the facts about it that the
  sort needs.
- `paths.dfy` (`Paths`): `get_paths`, and reading URLs back into their parts.
- `versions.dfy` (`Versions`): discovery of the sort keys and the stable
  newest-first sort.
- `index.dfy` (`Index`): the version loop, the tag documents, the `latest`
  flag and mirror, the dataset entries, the default friendly name and the
  index document.

Two behaviours of the code are modelled exactly as written:

- The `latest` mirror copies the whole version directory, both `files` and
  `zip-bundle`, into `{name}/versions/latest`.
- Every `tag.json` of a dataset merges the dataset over `version_json`, the
  descriptor read LAST by the discovery loop, not over the version being
  processed. That descriptor is one of the versions, and the same object, so
  once its own pass has run line 154 the later tags see its updated record.

## Model

| member | source | states |
|---|---|---|
| Paths.GetPaths | scripts/index.py:54-81 | Succeeds exactly when the dataset has a string `name`, the version a string `datetime` and a `files` mapping of file names. Otherwise it fails with the first missing key in the order the function reads them. On success, the file map has the declared file types as keys and `/{name}/versions/{datetime}/files/{filename}` as values; it also gives the directory shapes and `/{name}/versions/{datetime}/zip-bundle/nextclade_dataset_{name}_{datetime}.zip` |
| Paths.Layout | scripts/index.py:57-68 | The f-string construction yields the URL and directory shapes above from name, datetime and declared files |
| Paths.FileUrlRoundTrip | scripts/index.py:57-60 | Every public file URL reads back to the version's `datetime` and the declared file name, when the datetime holds no `/` |
| Paths.ZipUrlDatetime | scripts/index.py:65-68 | The zip bundle URL reads back to the version's `datetime`, when the datetime holds no `/` |
| Paths.DistinctVersionsDistinctUrls | scripts/index.py:57-68 | Two versions of one dataset with different datetimes share no file URL and no zip URL, when the datetimes hold no `/` |
| Json.LookupString | scripts/index.py:55-56 | `d[key]` used as a string: succeeds exactly when the key holds a string; a missing key is a KeyError |
| Json.Merge | scripts/index.py:137 | `{**base, **over}`: the keys are the union, a shared key takes the value of `over`, and a key only in `base` keeps its value |
| Lex.Total | scripts/index.py:130 | Any two `datetime` strings are comparable under Python's string order |
| Lex.Transitive | scripts/index.py:130 | Python's string order is transitive |
| Lex.Antisymmetric | scripts/index.py:130 | Two strings each `<=` the other are equal |
| Versions.Discover | scripts/index.py:125-130 | The sort key is evaluated on every descriptor in reading order. It succeeds exactly when all have a string `datetime`, and each version is then tagged with its reading position. Otherwise the error is the KeyError of the first undated descriptor |
| Versions.SortNewestFirst | scripts/index.py:130 | The sorted list is a permutation of its input and is non-increasing in `datetime` |
| Versions.SortStable | scripts/index.py:130 | For every key, the versions holding it keep their input order |
| Versions.SortKeepsOrder | scripts/index.py:130 | Versions with equal `datetime` come out in the order they were read |
| Versions.SortedFromDiscovery | scripts/index.py:125-130 | The sorted list holds every descriptor exactly once, tagged with its reading position. It is newest first, and stable |
| Index.SortedVersions | scripts/index.py:125-130 | The sort of one dataset succeeds exactly when every descriptor is dated, keeps the length, and otherwise raises on the first undated descriptor |
| Index.UpdateVersion | scripts/index.py:154 | `version.update(...)` sets `files` to the URL map, `zipBundle` to the zip URL and `latest` to the flag, and leaves every other field unchanged |
| Index.Mirror | scripts/index.py:149-152 | When every pass has updated its own version, the first pass mirrors `{name}/versions/{datetime}` of its own version to `{name}/versions/latest`, as lines 150-152 join them under the output root when the datetime does not start with `/` |
| Index.CollectPaths | scripts/index.py:132-134 | `get_paths` over the sorted versions succeeds exactly when every call does. Otherwise the error is that of the first failing call |
| Index.TagsFrom | scripts/index.py:132-137 | The `tag.json` contents of each pass, folding the current state of `version_json` through the loop. Its own contract gives only the length (one tag per remaining pass); Index.TagsFromAt and Index.TagDocuments state what each tag is |
| Index.TagsFromAt | scripts/index.py:137 | A tag written before the pass over the last-read descriptor merges its state as read. A tag written after that pass merges its updated record |
| Index.ProcessVersionsOk | scripts/index.py:125-134 | The versions of a dataset are processed exactly when `get_paths` can read every descriptor. An undated descriptor fails with the sort key's KeyError on the first one; otherwise the error is the `get_paths` error of an unreadable descriptor |
| Index.ProcessVersions | scripts/index.py:124-154 | The version loop of one dataset: the sort, `get_paths` on each version in sorted order, then the passes. Its own contract gives only that a successful loop yields one processed version per descriptor; Index.ProcessVersionsOk, Index.VersionsSorted, Index.VersionRecords, Index.LatestIsNewest and Index.TagDocuments state the rest |
| Index.VersionsSorted | scripts/index.py:125-132 | The processed versions hold every descriptor exactly once. They are newest first, with equal datetimes in reading order |
| Index.VersionRecords | scripts/index.py:132-154 | Every pass calls `get_paths` on its own version and updates that version's record as line 154 says. Only the first pass makes a mirror |
| Index.LatestIsNewest | scripts/index.py:132-154 | Exactly the first version is `latest: true`, all others `false`, and it alone is mirrored to `{name}/versions/latest`. Its `datetime` is at least that of every descriptor read |
| Index.TagDocuments | scripts/index.py:125-137 | The last-read descriptor is among the versions. Every tag merges the dataset over it: as read, up to and including its own pass, and as updated by line 154 after that |
| Index.DatasetEntry | scripts/index.py:156 | A dataset entry is the dataset map plus `versions`, which holds the updated records in sorted order; all other keys are unchanged |
| Index.Aggregate | scripts/index.py:112-157 | The dataset loop succeeds exactly when every dataset has a `name`, the default one a `nameFriendly`, and its versions process. On success there is one entry per dataset, in walk order. Otherwise the error is that of the first failing dataset, in the order its steps run |
| Index.Friendly | scripts/index.py:110-120 | `defaultDatasetNameFriendly` is the `nameFriendly` of the last dataset named `defaultDatasetName`, or keeps its starting value when there is none |
| Index.AggregateFriendly | scripts/index.py:118-120 | The dataset loop carries the friendly name as lines 118-120 update it |
| Index.BuildIndex | scripts/index.py:108-163 | A missing `defaultDatasetName` is a KeyError. On success, the index has exactly the keys `settings` and `datasets`; `datasets` has one entry per dataset in walk order, each its dataset map plus its processed versions; `settings` gains the friendly name. On a later failure the error is that of the first failing dataset |
| Index.BuildIndexOk | scripts/index.py:109-134 | The index is built exactly when `defaultDatasetName` is set, every dataset has a `name`, the default one a `nameFriendly`, and `get_paths` can read every version descriptor |
| Index.DefaultFriendlyName | scripts/index.py:110-159 | The settings gain `defaultDatasetNameFriendly` and nothing else in them changes. Its value is the last default dataset's `nameFriendly`, or `null` when no dataset is the default |

## Left out

- The filesystem walk (`find_files`, `find_dirs`, `find_dirs_here`): the datasets and their descriptors are given as sequences in walk order.
- Absolute paths (`os.path.realpath`, `os.path.join` against the input and output roots): only the relative parts are modelled. When neither `name` nor `datetime` starts with `/` or `..`, the absolute directories are those parts under the two roots. A `name` that starts with `/` makes `os.path.join` drop the root, so the input and output file directories of lines 62-63 and the zip paths of lines 70-71 leave both roots; a `name` that starts with `..` is moved out of them by `realpath`. The model does not follow either case.
- Index.Mirror: a newest `datetime` that starts with `/` makes the `os.path.join` of line 150 return that absolute directory, so the script mirrors it rather than `{name}/versions/{datetime}` under the output root; the model records the source as `{name}/versions/{datetime}` in every case.
- `shutil` (the output wipe, file copies, `make_archive`, `copytree`): the mirror is recorded as its source and destination directories, and copies and archives are not modelled.
- `json.load` and `json_write`: descriptors are decoded values, and the index is returned as a value rather than serialised.
- `dict_to_namedtuple`: replaced by the `Paths` record.
- `dataset_json_original`: it is never used.
- Non-string `name`, `datetime` or file names: Python would format them with `str()` in the f-strings, and compare non-string `datetime`s with their own ordering. The model treats them as errors.
- Equality between JSON values of different kinds that Python treats as equal (`True == 1`), in the `name == defaultDatasetName` test: the model compares decoded values structurally, with numbers as reals.
- Index.BuildIndex: does not model the `FileExistsError` of the `copytree` at line 152, raised when `{name}/versions/latest` already exists in the output. That happens when an earlier dataset with the same `name` had at least one version, or when the newest version's `datetime` is `latest`, so that the source and the destination are the same directory. In both cases the model returns the index where the script stops. Other ways in which paths built from names containing `/` or `..` can meet are also left out, together with path normalisation.
- Index.BuildIndexOk: its "exactly when" does not cover that `copytree` failure. Where the script stops on an existing `latest` destination, the lemma still calls the index built.
- Index.ProcessVersionsOk: when every descriptor is dated but `get_paths` fails, the error is stated to be that of some unreadable descriptor, not of the first one in sorted order. Its "exactly when" also does not cover the `copytree` failure at line 152 that a single dataset raises when its newest `datetime` is `latest`, because the source and the destination of the mirror are then the same existing directory.

=== FILE: index.dfy ===
/**
 * The decisions of the `__main__` block of scripts/index.py (lines 102-164)
 * with the filesystem taken out: the per-version rewrite, the `tag.json`
 * document, the `latest` flag and `latest/` mirror, the default dataset's
 * friendly name and the assembled index document. Discovery is given as a
 * sequence of datasets, each with its metadata descriptors, in walk order.
 */
module Index {
  import opened Json
  import Lex
  import opened Versions
  import opened Paths

  /** One `dataset.json` and the `metadata.json` files found under its directory. */
  datatype DatasetInput = DatasetInput(descriptor: Object, metadata: seq<Object>)

  /** One pass of the version loop (lines 132-154). */
  datatype Processed = Processed(
    origin: nat,                            // position of the descriptor in discovery order
    source: Object,                         // the descriptor as read
    paths: Paths,                           // `get_paths(dataset_json, version)`
    tag: Object,                            // the contents written to `tag.json`
    record: Object,                         // the descriptor after `version.update(...)`
    latestCopy: Option<(string, string)>)   // `copytree` source and destination, relative

  /** One dataset after its loop: the entry for the index, and its versions. */
  datatype DatasetOutput = DatasetOutput(entry: Object, versions: seq<Processed>)

  /** The index document and the per-dataset results it was built from. */
  datatype Build = Build(index: Object, datasets: seq<DatasetOutput>)

  /** The URL map as the JSON object stored under `files`. */
  function FilesObject(p: Paths): (v: Value)
    ensures v.Obj? && v.fields.Keys == p.files.Keys
    ensures forall t :: t in p.files ==> v.fields[t] == Str(p.files[t])
  {
    Obj(map t | t in p.files :: Str(p.files[t]))
  }

  /** `version.update({"files": ..., "zipBundle": ..., "latest": ...})`. */
  function UpdateVersion(version: Object, p: Paths, latest: bool): (r: Object)
    ensures r.Keys == version.Keys + {"files", "zipBundle", "latest"}
    ensures r["files"] == FilesObject(p)
    ensures r["zipBundle"] == Str(p.zipBundleUrl)
    ensures r["latest"] == Bool(latest)
    ensures forall k :: k in version && k != "files" && k != "zipBundle" && k != "latest" ==> r[k] == version[k]
  {
    Merge(version, map["files" := FilesObject(p), "zipBundle" := Str(p.zipBundleUrl), "latest" := Bool(latest)])
  }

  /** The `copytree` of lines 149-152: only the first pass mirrors its
      version directory into `latest`, both relative to the output root (a
      `datetime` that starts with `/` would replace the root at line 150). */
  function LatestCopy(datetime: string, position: nat, p: Paths): (c: Option<(string, string)>)
    ensures c.Some? <==> position == 0
    ensures c.Some? ==> c.value == (p.versionsDir + "/" + datetime, p.versionsDir + "/latest")
  {
    if position == 0 then Some((p.versionsDir + "/" + datetime, p.versionsDir + "/latest")) else None
  }

  /** The first failing entry of `rs` from position `i` on is at `k`. */
  predicate FirstFailure(rs: seq<Result<Paths>>, i: nat, k: nat) {
    && i <= k < |rs|
    && rs[k].Err?
    && forall j :: i <= j < k ==> rs[j].Ok?
  }

  /** The values of `rs` from position `i` on, or the first error among them:
      the loop calls `get_paths` once per version in sorted order, and the
      first call that raises ends the script. */
  function CollectPaths(rs: seq<Result<Paths>>, i: nat): (r: Result<seq<Paths>>)
    requires i <= |rs|
    ensures r.Ok? <==> forall k :: i <= k < |rs| ==> rs[k].Ok?
    ensures r.Ok? ==> |r.value| == |rs| - i
    ensures r.Ok? ==> forall k :: 0 <= k < |r.value| ==> rs[i + k] == Ok(r.value[k])
    ensures r.Err? ==> exists k: nat :: FirstFailure(rs, i, k) && rs[k] == Err(r.error)
    decreases |rs| - i
  {
    if i == |rs| then Ok([])
    else
      var p :- rs[i];
      var rest :- CollectPaths(rs, i + 1);
      Ok([p] + rest)
  }

  /** The `tag.json` contents from sorted position `i` on (line 137).
      `alias` is the current state of `version_json`, the dict read last from
      disk, which line 137 merges instead of the loop variable. Once the loop
      reaches that very dict (the one read at position `lastOrigin`) and
      updates it at line 154, later tags see the updated record. */
  function TagsFrom(dataset: Object, vs: seq<Version>, records: seq<Object>,
                    lastOrigin: nat, alias: Object, i: nat): (r: seq<Object>)
    requires |records| == |vs| && i <= |vs|
    ensures |r| == |vs| - i
    decreases |vs| - i
  {
    if i == |vs| then []
    else
      var alias' := if vs[i].origin == lastOrigin then records[i] else alias;
      [Merge(alias, dataset)] + TagsFrom(dataset, vs, records, lastOrigin, alias', i + 1)
  }

  /** The tag at position `k` merges `alias` as given while the last-read
      dict has not been reached, and that dict's updated record once it has. */
  lemma {:induction false} TagsFromAt(dataset: Object, vs: seq<Version>, records: seq<Object>,
                                      lastOrigin: nat, alias: Object, i: nat, k: nat)
    requires |records| == |vs| && i <= k < |vs| && DistinctOrigins(vs)
    ensures var tags := TagsFrom(dataset, vs, records, lastOrigin, alias, i);
            (forall j :: i <= j < k ==> vs[j].origin != lastOrigin) ==> tags[k - i] == Merge(alias, dataset)
    ensures var tags := TagsFrom(dataset, vs, records, lastOrigin, alias, i);
            forall j :: i <= j < k && vs[j].origin == lastOrigin ==> tags[k - i] == Merge(records[j], dataset)
    decreases |vs| - i
  {
    var tags := TagsFrom(dataset, vs, records, lastOrigin, alias, i);
    if k > i {
      var alias' := if vs[i].origin == lastOrigin then records[i] else alias;
      var rest := TagsFrom(dataset, vs, records, lastOrigin, alias', i + 1);
      assert tags == [Merge(alias, dataset)] + rest;
      TagsFromAt(dataset, vs, records, lastOrigin, alias', i + 1, k);
      assert tags[k - i] == rest[k - (i + 1)];
      forall j | i <= j < k && vs[j].origin == lastOrigin
        ensures tags[k - i] == Merge(records[j], dataset)
      {
        if j == i {
          assert forall j' :: i + 1 <= j' < k ==> vs[j'].origin != lastOrigin;
        }
      }
    }
  }

  /** The descriptors of one dataset sorted newest first (lines 125-130), or
      the error the sort key raises. */
  function SortedVersions(metadata: seq<Object>): (r: Result<seq<Version>>)
    ensures r.Ok? <==> AllDated(metadata)
    ensures r.Ok? ==> |r.value| == |metadata|
    ensures r.Err? ==> exists j: nat :: FirstUndated(metadata, 0, j) && r.error == KeyError(metadata[j])
  {
    assert metadata[0..] == metadata;
    var vs :- Discover(metadata, 0);
    var sorted := SortNewestFirst(vs);
    assert |sorted| == |multiset(sorted)| == |multiset(vs)| == |metadata|;
    Ok(sorted)
  }

  /** The sorted list holds every descriptor once, newest first, equal
      `datetime`s in reading order. */
  lemma SortedFacts(metadata: seq<Object>)
    requires SortedVersions(metadata).Ok?
    ensures SortedFrom(SortedVersions(metadata).value, metadata)
  {
    assert metadata[0..] == metadata;
    var vs := Discover(metadata, 0).value;
    assert Numbered(vs, metadata);
    SortedFromDiscovery(vs, metadata);
  }

  /** `get_paths` for every version of a sorted list. */
  function AllPaths(dataset: Object, s: seq<Version>): (r: seq<Result<Paths>>)
    ensures |r| == |s|
    ensures forall k :: 0 <= k < |s| ==> r[k] == GetPaths(dataset, s[k].desc)
  {
    seq(|s|, k requires 0 <= k < |s| => GetPaths(dataset, s[k].desc))
  }

  /** The descriptors after line 154, in sorted order. */
  function Records(vs: seq<Version>, paths: seq<Paths>): (r: seq<Object>)
    requires |paths| == |vs|
    ensures |r| == |vs|
    ensures forall k :: 0 <= k < |vs| ==> r[k] == UpdateVersion(vs[k].desc, paths[k], k == 0)
  {
    seq(|vs|, k requires 0 <= k < |vs| => UpdateVersion(vs[k].desc, paths[k], k == 0))
  }

  /** The passes of the loop over the sorted list `vs`, with `paths[k]` the
      value of `get_paths` for `vs[k]` and `lastRead` the descriptor read last,
      found at position `lastOrigin`. */
  function Passes(dataset: Object, vs: seq<Version>, paths: seq<Paths>, lastOrigin: nat, lastRead: Object)
    : (r: seq<Processed>)
    requires |paths| == |vs|
    ensures |r| == |vs|
    ensures var records := Records(vs, paths);
            var tags := TagsFrom(dataset, vs, records, lastOrigin, lastRead, 0);
            forall k :: 0 <= k < |vs| ==>
              r[k] == Processed(vs[k].origin, vs[k].desc, paths[k], tags[k], records[k], LatestCopy(vs[k].datetime, k, paths[k]))
  {
    var records := Records(vs, paths);
    var tags := TagsFrom(dataset, vs, records, lastOrigin, lastRead, 0);
    seq(|vs|, k requires 0 <= k < |vs| =>
          Processed(vs[k].origin, vs[k].desc, paths[k], tags[k], records[k], LatestCopy(vs[k].datetime, k, paths[k])))
  }

  /** The versions of one dataset (lines 124-154): discovery and the sort,
      `get_paths` for each version in sorted order, then the passes of the
      loop, `version_json` being the last descriptor read. */
  function ProcessVersions(dataset: Object, metadata: seq<Object>): (r: Result<seq<Processed>>)
    ensures r.Ok? ==> |r.value| == |metadata|
  {
    var sorted :- SortedVersions(metadata);
    var paths :- CollectPaths(AllPaths(dataset, sorted), 0);
    if |metadata| == 0 then Ok([])
    else Ok(Passes(dataset, sorted, paths, |metadata| - 1, metadata[|metadata| - 1]))
  }

  /** A successful loop in terms of the sorted list and the `get_paths`
      value of each of its versions. */
  lemma ProcessVersionsAt(dataset: Object, metadata: seq<Object>) returns (s: seq<Version>, paths: seq<Paths>)
    requires ProcessVersions(dataset, metadata).Ok?
    ensures SortedVersions(metadata) == Ok(s)
    ensures |paths| == |s| == |metadata|
    ensures forall k :: 0 <= k < |s| ==> GetPaths(dataset, s[k].desc) == Ok(paths[k])
    ensures ProcessVersions(dataset, metadata).value
         == if |metadata| == 0 then [] else Passes(dataset, s, paths, |metadata| - 1, metadata[|metadata| - 1])
  {
    s := SortedVersions(metadata).value;
    var all := AllPaths(dataset, s);
    paths := CollectPaths(all, 0).value;
    forall k | 0 <= k < |s|
      ensures GetPaths(dataset, s[k].desc) == Ok(paths[k])
    {
      assert all[0 + k] == Ok(paths[k]);
    }
  }

  /** The descriptors of a processed list, in its order. */
  function Sources(out: seq<Processed>): (r: seq<Object>)
    ensures |r| == |out|
    ensures forall k :: 0 <= k < |out| ==> r[k] == out[k].source
  {
    seq(|out|, k requires 0 <= k < |out| => out[k].source)
  }

  /** `out` holds each descriptor of `metadata` exactly once, newest first,
      descriptors with equal `datetime` in the order they were read. */
  predicate NewestFirstRearrangement(out: seq<Processed>, metadata: seq<Object>) {
    && |out| == |metadata|
    && multiset(Sources(out)) == multiset(metadata)
    && (forall k :: 0 <= k < |out| ==>
          && out[k].origin < |metadata|
          && out[k].source == metadata[out[k].origin]
          && HasString(out[k].source, "datetime"))
    && (forall a, b :: 0 <= a < b < |out| ==> out[a].origin != out[b].origin)
    && (forall a, b :: 0 <= a < b < |out| ==>
          Lex.LessEq(out[b].source["datetime"].s, out[a].source["datetime"].s))
    && (forall a, b :: 0 <= a < b < |out| ==>
          out[a].source["datetime"] != out[b].source["datetime"] || out[a].origin < out[b].origin)
  }

  /** The passes over a sorted list keep its order and its descriptors. */
  lemma PassesSorted(dataset: Object, metadata: seq<Object>, s: seq<Version>, paths: seq<Paths>, out: seq<Processed>)
    requires |metadata| > 0 && SortedVersions(metadata) == Ok(s) && |paths| == |s|
    requires out == Passes(dataset, s, paths, |metadata| - 1, metadata[|metadata| - 1])
    ensures NewestFirstRearrangement(out, metadata)
  {
    SortedFacts(metadata);
    assert SortedFrom(s, metadata);
    assert Sources(out) == Descs(s);
    forall a, b | 0 <= a < b < |out|
      ensures && Lex.LessEq(out[b].source["datetime"].s, out[a].source["datetime"].s)
              && (out[a].source["datetime"] != out[b].source["datetime"] || out[a].origin < out[b].origin)
    {
      assert out[a].source["datetime"] == Str(s[a].datetime);
      assert out[b].source["datetime"] == Str(s[b].datetime);
    }
  }

  /** Line 130: the versions come out newest first, as a rearrangement of the
      descriptors read, each exactly once, and the sort is stable. */
  lemma VersionsSorted(dataset: Object, metadata: seq<Object>)
    requires ProcessVersions(dataset, metadata).Ok?
    ensures NewestFirstRearrangement(ProcessVersions(dataset, metadata).value, metadata)
  {
    var s, paths := ProcessVersionsAt(dataset, metadata);
    var out := ProcessVersions(dataset, metadata).value;
    if |metadata| > 0 {
      PassesSorted(dataset, metadata, s, paths, out);
    } else {
      assert out == [] && metadata == [] && Sources(out) == [];
    }
  }

  /** Line 154 on every pass: `files`, `zipBundle` and `latest` set from
      `get_paths` and the position, the rest of the descriptor kept; and the
      `latest` mirror of lines 149-152 made on the first pass only. */
  predicate UpdatedInPlace(dataset: Object, out: seq<Processed>) {
    forall k :: 0 <= k < |out| ==>
      && GetPaths(dataset, out[k].source).Ok?
      && out[k].paths == GetPaths(dataset, out[k].source).value
      && out[k].record == UpdateVersion(out[k].source, out[k].paths, k == 0)
      && out[k].latestCopy == LatestCopy(out[k].source["datetime"].s, k, out[k].paths)
  }

  /** Each pass over a sorted list updates its own version. */
  lemma PassesUpdated(dataset: Object, metadata: seq<Object>, s: seq<Version>, paths: seq<Paths>, out: seq<Processed>)
    requires |metadata| > 0 && SortedVersions(metadata) == Ok(s) && |paths| == |s|
    requires forall k :: 0 <= k < |s| ==> GetPaths(dataset, s[k].desc) == Ok(paths[k])
    requires out == Passes(dataset, s, paths, |metadata| - 1, metadata[|metadata| - 1])
    ensures UpdatedInPlace(dataset, out)
  {
    SortedFacts(metadata);
    assert SortedFrom(s, metadata);
  }

  /** Every version record is its descriptor updated as line 154 says. */
  lemma VersionRecords(dataset: Object, metadata: seq<Object>)
    requires ProcessVersions(dataset, metadata).Ok?
    ensures UpdatedInPlace(dataset, ProcessVersions(dataset, metadata).value)
  {
    var s, paths := ProcessVersionsAt(dataset, metadata);
    var out := ProcessVersions(dataset, metadata).value;
    if |metadata| > 0 {
      PassesUpdated(dataset, metadata, s, paths, out);
    }
  }

  /** Line 154: the first version alone is marked `latest`; lines 149-152:
      it alone is mirrored. */
  predicate LatestFlagged(out: seq<Processed>) {
    && (forall k :: 0 <= k < |out| ==> "latest" in out[k].record && out[k].record["latest"] == Bool(k == 0))
    && (forall k :: 0 <= k < |out| ==> (out[k].latestCopy.Some? <==> k == 0))
  }

  /** The first version is at least as new as every descriptor read. */
  predicate NewestInFront(out: seq<Processed>, metadata: seq<Object>) {
    |out| > 0 ==>
      && HasString(out[0].source, "datetime")
      && forall j :: 0 <= j < |metadata| ==>
           HasString(metadata[j], "datetime") && Lex.LessEq(metadata[j]["datetime"].s, out[0].source["datetime"].s)
  }

  /** The mirror copies `{name}/versions/{datetime}` of the first version to
      `{name}/versions/latest`. */
  predicate LatestMirror(dataset: Object, out: seq<Processed>) {
    |out| > 0 ==>
      && HasString(dataset, "name")
      && HasString(out[0].source, "datetime")
      && out[0].latestCopy
         == Some((dataset["name"].s + "/versions/" + out[0].source["datetime"].s,
                  dataset["name"].s + "/versions/latest"))
  }

  /** Updated records carry the `latest` flag of their position. */
  lemma Flagged(dataset: Object, out: seq<Processed>)
    requires UpdatedInPlace(dataset, out)
    ensures LatestFlagged(out)
  {
  }

  /** The head of a newest-first rearrangement is the newest descriptor. */
  lemma InFront(out: seq<Processed>, metadata: seq<Object>)
    requires NewestFirstRearrangement(out, metadata)
    ensures NewestInFront(out, metadata)
  {
    if |out| > 0 {
      var datetime := out[0].source["datetime"].s;
      forall j | 0 <= j < |metadata|
        ensures HasString(metadata[j], "datetime")
        ensures Lex.LessEq(metadata[j]["datetime"].s, datetime)
      {
        assert metadata[j] in multiset(Sources(out));
        var k :| 0 <= k < |out| && Sources(out)[k] == metadata[j];
        if k == 0 {
          Lex.Reflexive(datetime);
        }
      }
    }
  }

  /** The first pass mirrors its own version directory. */
  lemma Mirror(dataset: Object, out: seq<Processed>)
    requires UpdatedInPlace(dataset, out)
    ensures LatestMirror(dataset, out)
  {
    if |out| > 0 {
      assert GetPaths(dataset, out[0].source).Ok?;
      var name := dataset["name"].s;
      assert out[0].paths.versionsDir == name + "/versions";
      var datetime := out[0].source["datetime"].s;
      assert out[0].latestCopy == LatestCopy(datetime, 0, out[0].paths);
      assert name + "/versions" + "/" + datetime == name + ("/versions" + "/") + datetime;
      assert name + "/versions" + "/latest" == name + ("/versions" + "/latest");
      assert "/versions" + "/" == "/versions/";
      assert "/versions" + "/latest" == "/versions/latest";
    }
  }

  /** Lines 132, 149-154: only the newest version is marked `latest` and
      mirrored to `{name}/versions/latest`. */
  lemma LatestIsNewest(dataset: Object, metadata: seq<Object>)
    requires ProcessVersions(dataset, metadata).Ok?
    ensures var out := ProcessVersions(dataset, metadata).value;
            LatestFlagged(out) && NewestInFront(out, metadata) && LatestMirror(dataset, out)
  {
    var out := ProcessVersions(dataset, metadata).value;
    VersionsSorted(dataset, metadata);
    VersionRecords(dataset, metadata);
    Flagged(dataset, out);
    InFront(out, metadata);
    Mirror(dataset, out);
  }

  /** Line 137: each tag merges the dataset over `version_json`, the
      descriptor read last (at position `lastOrigin`, as `lastRead`), in its
      state when the tag is written: as read up to and including the pass over
      that descriptor, and as updated by line 154 on every later pass. */
  predicate TagsFromLastRead(dataset: Object, out: seq<Processed>, lastOrigin: nat, lastRead: Object) {
    forall j, k :: 0 <= j < |out| && 0 <= k < |out| && out[j].origin == lastOrigin ==>
      out[k].tag == Merge(if k <= j then lastRead else out[j].record, dataset)
  }

  /** The tag written on pass `k` when the last-read descriptor sits at
      position `j` of the sorted list. */
  lemma TagAt(dataset: Object, s: seq<Version>, records: seq<Object>, lastOrigin: nat, lastRead: Object,
              j: nat, k: nat)
    requires |records| == |s| && DistinctOrigins(s)
    requires j < |s| && k < |s| && s[j].origin == lastOrigin
    ensures TagsFrom(dataset, s, records, lastOrigin, lastRead, 0)[k]
         == Merge(if k <= j then lastRead else records[j], dataset)
  {
    TagsFromAt(dataset, s, records, lastOrigin, lastRead, 0, k);
    if k <= j {
      assert forall i :: 0 <= i < k ==> s[i].origin != s[j].origin;
    }
  }

  /** Every tag of the passes over a list with distinct origins. */
  lemma PassesTags(dataset: Object, s: seq<Version>, paths: seq<Paths>, lastOrigin: nat, lastRead: Object,
                   out: seq<Processed>)
    requires |paths| == |s| && DistinctOrigins(s)
    requires out == Passes(dataset, s, paths, lastOrigin, lastRead)
    ensures TagsFromLastRead(dataset, out, lastOrigin, lastRead)
  {
    var records := Records(s, paths);
    forall j, k | 0 <= j < |out| && 0 <= k < |out| && out[j].origin == lastOrigin
      ensures out[k].tag == Merge(if k <= j then lastRead else out[j].record, dataset)
    {
      TagAt(dataset, s, records, lastOrigin, lastRead, j, k);
    }
  }

  /** The sorted list holds no descriptor twice. */
  lemma SortedDistinct(metadata: seq<Object>, s: seq<Version>)
    requires SortedVersions(metadata) == Ok(s)
    ensures DistinctOrigins(s)
  {
    SortedFacts(metadata);
  }

  /** What the tags need of the sorted list: distinct origins, the last one
      among them. */
  lemma SortedHasLast(metadata: seq<Object>, s: seq<Version>)
    requires |metadata| > 0 && SortedVersions(metadata) == Ok(s)
    ensures DistinctOrigins(s)
    ensures exists j :: 0 <= j < |s| && s[j].origin == |metadata| - 1 && s[j].desc == metadata[|metadata| - 1]
  {
    SortedFacts(metadata);
    assert HasOrigin(s, |metadata| - 1);
  }

  /** The tags of a dataset with at least one version. */
  lemma DatasetTags(dataset: Object, metadata: seq<Object>, s: seq<Version>, paths: seq<Paths>, out: seq<Processed>)
    requires |metadata| > 0 && SortedVersions(metadata) == Ok(s) && |paths| == |s|
    requires out == Passes(dataset, s, paths, |metadata| - 1, metadata[|metadata| - 1])
    ensures TagsFromLastRead(dataset, out, |metadata| - 1, metadata[|metadata| - 1])
  {
    SortedDistinct(metadata, s);
    PassesTags(dataset, s, paths, |metadata| - 1, metadata[|metadata| - 1], out);
  }

  /** The descriptor read last is processed on some pass. */
  lemma LastReadAmong(dataset: Object, metadata: seq<Object>, s: seq<Version>, paths: seq<Paths>, out: seq<Processed>)
    requires |metadata| > 0 && SortedVersions(metadata) == Ok(s) && |paths| == |s|
    requires out == Passes(dataset, s, paths, |metadata| - 1, metadata[|metadata| - 1])
    ensures exists j :: 0 <= j < |out| && out[j].origin == |metadata| - 1 && out[j].source == metadata[|metadata| - 1]
  {
    SortedHasLast(metadata, s);
    var j :| 0 <= j < |s| && s[j].origin == |metadata| - 1 && s[j].desc == metadata[|metadata| - 1];
    assert out[j].origin == s[j].origin && out[j].source == s[j].desc;
  }

  /** The tag documents of a dataset: `version_json` is the descriptor read
      last, it is among the versions, and every tag is built from it. */
  lemma TagDocuments(dataset: Object, metadata: seq<Object>)
    requires ProcessVersions(dataset, metadata).Ok? && |metadata| > 0
    ensures var out := ProcessVersions(dataset, metadata).value;
            exists j :: 0 <= j < |out| && out[j].origin == |metadata| - 1 && out[j].source == metadata[|metadata| - 1]
    ensures TagsFromLastRead(dataset, ProcessVersions(dataset, metadata).value, |metadata| - 1, metadata[|metadata| - 1])
  {
    var s, paths := ProcessVersionsAt(dataset, metadata);
    DatasetTags(dataset, metadata, s, paths, ProcessVersions(dataset, metadata).value);
    LastReadAmong(dataset, metadata, s, paths, ProcessVersions(dataset, metadata).value);
  }

  /** `d` is the descriptor of one of the versions of `s`. */
  predicate Among(s: seq<Version>, d: Object) {
    exists k :: 0 <= k < |s| && s[k].desc == d
  }

  /** The sorted list and the descriptors read hold the same descriptors. */
  lemma SortedDescriptors(metadata: seq<Object>, s: seq<Version>)
    requires SortedVersions(metadata) == Ok(s)
    ensures forall k :: 0 <= k < |s| ==> s[k].origin < |metadata| && s[k].desc == metadata[s[k].origin]
    ensures forall j :: 0 <= j < |metadata| ==> Among(s, metadata[j])
  {
    SortedFacts(metadata);
    forall j | 0 <= j < |metadata|
      ensures Among(s, metadata[j])
    {
      assert HasOrigin(s, j);
      var k :| 0 <= k < |s| && s[k].origin == j;
      assert s[k].desc == metadata[j];
    }
  }

  /** `get_paths` over the sorted list is `get_paths` over the descriptors
      read, rearranged. */
  lemma SortedPaths(dataset: Object, metadata: seq<Object>, s: seq<Version>)
    requires SortedVersions(metadata) == Ok(s)
    ensures (forall k :: 0 <= k < |s| ==> AllPaths(dataset, s)[k].Ok?)
            <==> forall j :: 0 <= j < |metadata| ==> PathsDefined(dataset, metadata[j])
    ensures forall k :: 0 <= k < |s| ==>
              s[k].origin < |metadata| && AllPaths(dataset, s)[k] == GetPaths(dataset, metadata[s[k].origin])
  {
    var all := AllPaths(dataset, s);
    SortedDescriptors(metadata, s);
    if forall k :: 0 <= k < |s| ==> all[k].Ok? {
      forall j | 0 <= j < |metadata|
        ensures PathsDefined(dataset, metadata[j])
      {
        var k :| 0 <= k < |s| && s[k].desc == metadata[j];
        assert all[k].Ok?;
      }
    }
  }

  /** When the versions of a dataset come out, and what stops them: the sort
      key raises on the first undated descriptor (line 130); otherwise
      `get_paths` raises on a descriptor it cannot read (line 134). */
  lemma ProcessVersionsOk(dataset: Object, metadata: seq<Object>)
    ensures ProcessVersions(dataset, metadata).Ok?
            <==> forall j :: 0 <= j < |metadata| ==> PathsDefined(dataset, metadata[j])
    ensures !AllDated(metadata) ==>
              exists j: nat :: FirstUndated(metadata, 0, j) && ProcessVersions(dataset, metadata) == Err(KeyError(metadata[j]))
    ensures AllDated(metadata) && ProcessVersions(dataset, metadata).Err? ==>
              exists j :: && 0 <= j < |metadata|
                          && !PathsDefined(dataset, metadata[j])
                          && GetPaths(dataset, metadata[j]) == Err(ProcessVersions(dataset, metadata).error)
  {
    if SortedVersions(metadata).Ok? {
      var s := SortedVersions(metadata).value;
      PathsOutcome(dataset, metadata, s);
    }
  }

  /** The `get_paths` calls over the sorted list all succeed exactly when
      every descriptor read is readable, and otherwise fail on one that is not. */
  lemma PathsOutcome(dataset: Object, metadata: seq<Object>, s: seq<Version>)
    requires SortedVersions(metadata) == Ok(s)
    ensures CollectPaths(AllPaths(dataset, s), 0).Ok?
            <==> forall j :: 0 <= j < |metadata| ==> PathsDefined(dataset, metadata[j])
    ensures CollectPaths(AllPaths(dataset, s), 0).Err? ==>
              exists j :: && 0 <= j < |metadata|
                          && !PathsDefined(dataset, metadata[j])
                          && GetPaths(dataset, metadata[j]) == Err(CollectPaths(AllPaths(dataset, s), 0).error)
  {
    SortedPaths(dataset, metadata, s);
    if CollectPaths(AllPaths(dataset, s), 0).Err? {
      PathsFailure(dataset, metadata, s);
    }
  }

  /** The first failing `get_paths` call is on some descriptor read. */
  lemma PathsFailure(dataset: Object, metadata: seq<Object>, s: seq<Version>)
    requires SortedVersions(metadata) == Ok(s) && CollectPaths(AllPaths(dataset, s), 0).Err?
    ensures exists j :: && 0 <= j < |metadata|
                        && !PathsDefined(dataset, metadata[j])
                        && GetPaths(dataset, metadata[j]) == Err(CollectPaths(AllPaths(dataset, s), 0).error)
  {
    var all := AllPaths(dataset, s);
    var e := CollectPaths(all, 0).error;
    SortedPaths(dataset, metadata, s);
    var k: nat :| FirstFailure(all, 0, k) && all[k] == Err(e);
    assert GetPaths(dataset, metadata[s[k].origin]) == Err(e);
  }

  /** `{**dataset_json, "versions": versions}` (line 156): the descriptor with
      the updated version records, in sorted order, under `versions`. */
  function DatasetEntry(descriptor: Object, versions: seq<Processed>): (e: Object)
    ensures e.Keys == descriptor.Keys + {"versions"}
    ensures e["versions"].Arr? && |e["versions"].items| == |versions|
    ensures forall k :: 0 <= k < |versions| ==> e["versions"].items[k] == Obj(versions[k].record)
    ensures forall key :: key in descriptor && key != "versions" ==> e[key] == descriptor[key]
  {
    var records := seq(|versions|, k requires 0 <= k < |versions| => Obj(versions[k].record));
    Merge(descriptor, map["versions" := Arr(records)])
  }

  /** The entries of the `datasets` list, in walk order. */
  function Entries(outs: seq<DatasetOutput>): (r: seq<Value>)
    ensures |r| == |outs|
    ensures forall k :: 0 <= k < |outs| ==> r[k] == Obj(outs[k].entry)
  {
    seq(|outs|, k requires 0 <= k < |outs| => Obj(outs[k].entry))
  }

  /** The loop gets past the name checks of lines 118-120 for `d`. */
  predicate NamesReadable(defaultName: Value, d: Object) {
    "name" in d && (d["name"] == defaultName ==> "nameFriendly" in d)
  }

  /** What the dataset loop raises on a dataset it cannot get through: a
      missing `name`, a missing `nameFriendly` on the default dataset, or
      what its versions raise. */
  function DatasetError(defaultName: Value, d: Object, versions: Result<seq<Processed>>): Error
    requires !(NamesReadable(defaultName, d) && versions.Ok?)
  {
    if "name" !in d then MissingKey("name")
    else if d["name"] == defaultName && "nameFriendly" !in d then MissingKey("nameFriendly")
    else versions.error
  }

  /** The loop cannot get through dataset `d`, and raises `e` on it. */
  predicate FailsWith(defaultName: Value, d: Object, versions: Result<seq<Processed>>, e: Error) {
    !(NamesReadable(defaultName, d) && versions.Ok?) && e == DatasetError(defaultName, d, versions)
  }

  /** Dataset `k` is the first one from `i` on that the loop cannot get through. */
  predicate FirstBadDataset(defaultName: Value, inputs: seq<DatasetInput>, results: seq<Result<seq<Processed>>>,
                            i: nat, k: nat)
    requires |results| == |inputs|
  {
    && i <= k < |inputs|
    && !(NamesReadable(defaultName, inputs[k].descriptor) && results[k].Ok?)
    && forall j :: i <= j < k ==> NamesReadable(defaultName, inputs[j].descriptor) && results[j].Ok?
  }

  /** The dataset loop of lines 112-157 from dataset `i` on, `results[k]`
      being what the version loop makes of dataset `k` and `friendly` the
      value of `defaultDatasetNameFriendly` so far. */
  function Aggregate(defaultName: Value, inputs: seq<DatasetInput>, results: seq<Result<seq<Processed>>>,
                     i: nat, friendly: Value): (r: Result<(seq<DatasetOutput>, Value)>)
    requires |results| == |inputs| && i <= |inputs|
    ensures r.Ok? <==> forall k :: i <= k < |inputs| ==> NamesReadable(defaultName, inputs[k].descriptor) && results[k].Ok?
    ensures r.Ok? ==> |r.value.0| == |inputs| - i
    ensures r.Ok? ==> forall k :: i <= k < |inputs| ==>
              r.value.0[k - i] == DatasetOutput(DatasetEntry(inputs[k].descriptor, results[k].value), results[k].value)
    ensures r.Err? ==>
              exists k: nat :: FirstBadDataset(defaultName, inputs, results, i, k)
                            && FailsWith(defaultName, inputs[k].descriptor, results[k], r.error)
    decreases |inputs| - i
  {
    if i == |inputs| then Ok(([], friendly))
    else
      var d := inputs[i].descriptor;
      var name :- Lookup(d, "name");
      var friendly' :- if name == defaultName then Lookup(d, "nameFriendly") else Ok(friendly);
      var versions :- results[i];
      var rest :- Aggregate(defaultName, inputs, results, i + 1, friendly');
      Ok(([DatasetOutput(DatasetEntry(d, versions), versions)] + rest.0, rest.1))
  }

  /** `d` is the descriptor of the default dataset. */
  predicate IsDefault(defaultName: Value, d: Object) {
    "name" in d && d["name"] == defaultName
  }

  /** Dataset `k` is the last default dataset from `i` on. */
  predicate LastDefault(defaultName: Value, inputs: seq<DatasetInput>, i: nat, k: nat) {
    && i <= k < |inputs|
    && IsDefault(defaultName, inputs[k].descriptor)
    && forall j :: k < j < |inputs| ==> !IsDefault(defaultName, inputs[j].descriptor)
  }

  /** Lines 118-120 alone: `defaultDatasetNameFriendly` after the datasets
      from `i` on, starting from `friendly`. */
  function Friendly(defaultName: Value, inputs: seq<DatasetInput>, i: nat, friendly: Value): (f: Value)
    requires i <= |inputs|
    requires forall k :: i <= k < |inputs| && IsDefault(defaultName, inputs[k].descriptor) ==>
               "nameFriendly" in inputs[k].descriptor
    ensures (forall k :: i <= k < |inputs| ==> !IsDefault(defaultName, inputs[k].descriptor)) ==> f == friendly
    ensures forall k: nat :: LastDefault(defaultName, inputs, i, k) ==> f == inputs[k].descriptor["nameFriendly"]
    decreases |inputs| - i
  {
    if i == |inputs| then friendly
    else
      var d := inputs[i].descriptor;
      var f := Friendly(defaultName, inputs, i + 1, if IsDefault(defaultName, d) then d["nameFriendly"] else friendly);
      assert forall k: nat :: i < k && LastDefault(defaultName, inputs, i, k) ==> LastDefault(defaultName, inputs, i + 1, k);
      f
  }

  /** The dataset loop carries `defaultDatasetNameFriendly` as lines
      118-120 say. */
  lemma {:induction false} AggregateFriendly(defaultName: Value, inputs: seq<DatasetInput>,
                                             results: seq<Result<seq<Processed>>>, i: nat, friendly: Value)
    requires |results| == |inputs| && i <= |inputs|
    requires Aggregate(defaultName, inputs, results, i, friendly).Ok?
    ensures Aggregate(defaultName, inputs, results, i, friendly).value.1 == Friendly(defaultName, inputs, i, friendly)
    decreases |inputs| - i
  {
    if i < |inputs| {
      var d := inputs[i].descriptor;
      var friendly' := if IsDefault(defaultName, d) then d["nameFriendly"] else friendly;
      AggregateFriendly(defaultName, inputs, results, i + 1, friendly');
    }
  }

  /** What the version loop makes of each dataset. */
  function VersionResults(inputs: seq<DatasetInput>): (r: seq<Result<seq<Processed>>>)
    ensures |r| == |inputs|
    ensures forall k :: 0 <= k < |inputs| ==> r[k] == ProcessVersions(inputs[k].descriptor, inputs[k].metadata)
  {
    seq(|inputs|, k requires 0 <= k < |inputs| => ProcessVersions(inputs[k].descriptor, inputs[k].metadata))
  }

  /** The script after reading `settings.json` (lines 108-163): the index
      document written to `index.json`, with the per-dataset results, or the
      first error raised. */
  function BuildIndex(settings: Object, inputs: seq<DatasetInput>): (r: Result<Build>)
    ensures "defaultDatasetName" !in settings ==> r == Err(MissingKey("defaultDatasetName"))
    ensures r.Ok? ==> r.value.index.Keys == {"settings", "datasets"}
    ensures r.Ok? ==>
              && "defaultDatasetName" in settings
              && (forall k :: 0 <= k < |inputs| ==> NamesReadable(settings["defaultDatasetName"], inputs[k].descriptor))
              && r.value.index["settings"]
                 == Obj(Merge(settings, map["defaultDatasetNameFriendly" :=
                                              Friendly(settings["defaultDatasetName"], inputs, 0, Null)]))
    ensures r.Ok? ==> |r.value.datasets| == |inputs| && r.value.index["datasets"] == Arr(Entries(r.value.datasets))
    ensures r.Ok? ==> forall k :: 0 <= k < |inputs| ==>
              var versions := ProcessVersions(inputs[k].descriptor, inputs[k].metadata);
              versions.Ok? && r.value.datasets[k] == DatasetOutput(DatasetEntry(inputs[k].descriptor, versions.value), versions.value)
    ensures "defaultDatasetName" in settings && r.Err? ==>
              var defaultName := settings["defaultDatasetName"];
              var results := VersionResults(inputs);
              exists k: nat :: FirstBadDataset(defaultName, inputs, results, 0, k)
                            && FailsWith(defaultName, inputs[k].descriptor, results[k], r.error)
  {
    var defaultName :- Lookup(settings, "defaultDatasetName");
    var results := VersionResults(inputs);
    var agg :- Aggregate(defaultName, inputs, results, 0, Null);
    AggregateFriendly(defaultName, inputs, results, 0, Null);
    var settings' := Merge(settings, map["defaultDatasetNameFriendly" := agg.1]);
    Ok(Build(map["settings" := Obj(settings'), "datasets" := Arr(Entries(agg.0))], agg.0))
  }

  /** The index is built exactly when `settings.json` names a default
      dataset, every dataset has a `name`, the default one a `nameFriendly`,
      and every version descriptor is one `get_paths` can read. */
  lemma BuildIndexOk(settings: Object, inputs: seq<DatasetInput>)
    ensures BuildIndex(settings, inputs).Ok?
            <==> && "defaultDatasetName" in settings
                 && (forall k :: 0 <= k < |inputs| ==> NamesReadable(settings["defaultDatasetName"], inputs[k].descriptor))
                 && (forall k, j :: 0 <= k < |inputs| && 0 <= j < |inputs[k].metadata| ==>
                       PathsDefined(inputs[k].descriptor, inputs[k].metadata[j]))
  {
    var results := VersionResults(inputs);
    forall k | 0 <= k < |inputs|
      ensures results[k].Ok? <==> forall j :: 0 <= j < |inputs[k].metadata| ==>
                                    PathsDefined(inputs[k].descriptor, inputs[k].metadata[j])
    {
      ProcessVersionsOk(inputs[k].descriptor, inputs[k].metadata);
    }
  }

  /** Lines 110, 118-120 and 159-163: the settings gain
      `defaultDatasetNameFriendly` and nothing else changes in them; its value
      is the `nameFriendly` of the last default dataset, or `null` when no
      dataset is the default. */
  lemma DefaultFriendlyName(settings: Object, inputs: seq<DatasetInput>, b: Build)
    requires BuildIndex(settings, inputs) == Ok(b)
    ensures "defaultDatasetName" in settings
    ensures b.index["settings"].Obj?
    ensures b.index["settings"].fields.Keys == settings.Keys + {"defaultDatasetNameFriendly"}
    ensures forall key :: key in settings && key != "defaultDatasetNameFriendly" ==>
              b.index["settings"].fields[key] == settings[key]
    ensures (forall k :: 0 <= k < |inputs| ==> !IsDefault(settings["defaultDatasetName"], inputs[k].descriptor))
            ==> b.index["settings"].fields["defaultDatasetNameFriendly"] == Null
    ensures forall k: nat :: LastDefault(settings["defaultDatasetName"], inputs, 0, k) ==>
              b.index["settings"].fields["defaultDatasetNameFriendly"] == inputs[k].descriptor["nameFriendly"]
  {
  }
}

=== FILE: json.dfy ===
/**
 * Decoded JSON documents as the indexing script sees them after `json.load`,
 * the failures its dictionary accesses can raise, and the shallow merge
 * `{**base, **over}` it uses to combine descriptors.
 */
module Json {

  /** A decoded JSON value. Numbers are kept as reals: `json.load` yields
      `int` or `float`, and Python compares the two by value. */
  datatype Value =
    | Null
    | Bool(b: bool)
    | Num(n: real)
    | Str(s: string)
    | Arr(items: seq<Value>)
    | Obj(fields: map<string, Value>)

  /** A decoded JSON object: dataset descriptors, version descriptors, settings. */
  type Object = map<string, Value>

  /** The ways the script's dictionary accesses fail. */
  datatype Error =
    | MissingKey(key: string)   // `d[key]` raising KeyError
    | NotAnObject(key: string)  // `d[key].items()` on something that is not a dict
    | NotAString(key: string)   // a field the model only accepts as a string

  datatype Option<+T> = None | Some(value: T)

  /** Success or the first error the script would raise; usable with `:-`. */
  datatype Result<+T> = Ok(value: T) | Err(error: Error) {
    predicate IsFailure() {
      Err?
    }

    function PropagateFailure<U>(): Result<U>
      requires Err?
    {
      Err(error)
    }

    function Extract(): T
      requires Ok?
    {
      value
    }
  }

  /** True when `o[key]` is present and is a string. */
  predicate HasString(o: Object, key: string) {
    key in o && o[key].Str?
  }

  /** `o[key]`, raising KeyError when the key is absent. */
  function Lookup(o: Object, key: string): (r: Result<Value>)
    ensures r.Ok? <==> key in o
    ensures r.Ok? ==> r.value == o[key]
    ensures r.Err? ==> r.error == MissingKey(key)
  {
    if key in o then Ok(o[key]) else Err(MissingKey(key))
  }

  /** `o[key]` used as a string: absent is a KeyError, present but not a string is rejected. */
  function LookupString(o: Object, key: string): (r: Result<string>)
    ensures r.Ok? <==> HasString(o, key)
    ensures r.Ok? ==> o[key] == Str(r.value)
    ensures key !in o ==> r == Err(MissingKey(key))
    ensures key in o && !o[key].Str? ==> r == Err(NotAString(key))
  {
    var v :- Lookup(o, key);
    if v.Str? then Ok(v.s) else Err(NotAString(key))
  }

  /** The shallow merge `{**base, **over}`: every key of either object, and on a
      key both hold, the value from `over`. */
  function Merge(base: Object, over: Object): (r: Object)
    ensures r.Keys == base.Keys + over.Keys
    ensures forall k :: k in over ==> r[k] == over[k]
    ensures forall k :: k in base && k !in over ==> r[k] == base[k]
  {
    base + over
  }
}

=== FILE: lex.dfy ===
/**
 * Python's ordering of `str` values, which the version sort compares
 * `datetime` fields with: lexicographic by code point, a proper prefix
 * sorting before any of its extensions.
 */
module Lex {

  /** `a <= b` on Python strings. */
  predicate LessEq(a: string, b: string)
    decreases |a|
  {
    |a| == 0 || (|b| > 0 && (a[0] < b[0] || (a[0] == b[0] && LessEq(a[1..], b[1..]))))
  }

  lemma {:induction false} Reflexive(a: string)
    ensures LessEq(a, a)
    decreases |a|
  {
    if |a| > 0 {
      Reflexive(a[1..]);
    }
  }

  /** Any two strings are comparable. */
  lemma {:induction false} Total(a: string, b: string)
    ensures LessEq(a, b) || LessEq(b, a)
    decreases |a|
  {
    if |a| > 0 && |b| > 0 && a[0] == b[0] {
      Total(a[1..], b[1..]);
    }
  }

  lemma {:induction false} Transitive(a: string, b: string, c: string)
    requires LessEq(a, b) && LessEq(b, c)
    ensures LessEq(a, c)
    decreases |a|
  {
    if |a| > 0 && a[0] == b[0] && b[0] == c[0] {
      Transitive(a[1..], b[1..], c[1..]);
    }
  }

  lemma {:induction false} Antisymmetric(a: string, b: string)
    requires LessEq(a, b) && LessEq(b, a)
    ensures a == b
    decreases |a|
  {
    if |a| > 0 {
      Antisymmetric(a[1..], b[1..]);
      assert a == [a[0]] + a[1..];
      assert b == [b[0]] + b[1..];
    }
  }
}

=== FILE: paths.dfy ===
/**
 * `get_paths` (scripts/index.py:54-81): the relative directories and public
 * URLs of one version of one dataset, derived from the dataset's `name`, the
 * version's `datetime` and its `files` mapping. When neither `name` nor
 * `datetime` starts with `/` or `..`, the absolute input and output
 * directories are these relative parts joined to the input and output roots;
 * `os.path.join` drops the root for a part that starts with `/`.
 */
module Paths {
  import opened Json

  /** The relative parts of the value `get_paths` returns. */
  datatype Paths = Paths(
    files: map<string, string>,  // file type -> public URL
    versionsDir: string,         // `{name}/versions`
    filesDir: string,            // `{name}/versions/{datetime}/files`, joined to both roots
    zipDir: string,              // `{name}/versions/{datetime}/zip-bundle`
    zipBase: string,             // archive name without `.zip`
    zipBundleUrl: string)

  /** `version['files']` is a mapping whose every value is a file name. */
  predicate FilesAreNames(version: Object) {
    && "files" in version
    && version["files"].Obj?
    && forall t :: t in version["files"].fields ==> version["files"].fields[t].Str?
  }

  /** Everything `get_paths` reads is present and of the expected shape. */
  predicate PathsDefined(dataset: Object, version: Object) {
    HasString(dataset, "name") && HasString(version, "datetime") && FilesAreNames(version)
  }

  /** `get_paths` (lines 54-81): reads `name`, then `datetime`, then the
      `files` mapping, and fails on the first that is missing or malformed. */
  function GetPaths(dataset: Object, version: Object): (r: Result<Paths>)
    ensures r.Ok? <==> PathsDefined(dataset, version)
    ensures "name" !in dataset ==> r == Err(MissingKey("name"))
    ensures HasString(dataset, "name") && "datetime" !in version ==> r == Err(MissingKey("datetime"))
    ensures (HasString(dataset, "name") && HasString(version, "datetime") && "files" !in version)
            ==> r == Err(MissingKey("files"))
    ensures (HasString(dataset, "name") && HasString(version, "datetime") && "files" in version
             && !version["files"].Obj?) ==> r == Err(NotAnObject("files"))
    ensures r.Ok? ==>
              var name := dataset["name"].s;
              var datetime := version["datetime"].s;
              var declared := version["files"].fields;
              && r.value.files.Keys == declared.Keys
              && (forall t :: t in declared ==>
                    r.value.files[t] == "/" + name + "/versions/" + datetime + "/files/" + declared[t].s)
              && r.value.versionsDir == name + "/versions"
              && r.value.filesDir == name + "/versions/" + datetime + "/files"
              && r.value.zipDir == name + "/versions/" + datetime + "/zip-bundle"
              && r.value.zipBase == "nextclade_dataset_" + name + "_" + datetime
              && r.value.zipBundleUrl
                 == "/" + name + "/versions/" + datetime + "/zip-bundle/nextclade_dataset_" + name + "_" + datetime + ".zip"
  {
    var name :- LookupString(dataset, "name");
    var datetime :- LookupString(version, "datetime");
    var filesValue :- Lookup(version, "files");
    if !filesValue.Obj? then Err(NotAnObject("files"))
    else if exists t :: t in filesValue.fields && !filesValue.fields[t].Str? then Err(NotAString("files"))
    else
      var p := Layout(name, datetime, map t | t in filesValue.fields :: filesValue.fields[t].s);
      Ok(p)
  }

  /** The f-string construction of `get_paths` once its three inputs are read. */
  function Layout(name: string, datetime: string, declared: map<string, string>): (p: Paths)
    ensures p.files.Keys == declared.Keys
    ensures forall t :: t in declared ==>
              p.files[t] == "/" + name + "/versions/" + datetime + "/files/" + declared[t]
    ensures p.versionsDir == name + "/versions"
    ensures p.filesDir == name + "/versions/" + datetime + "/files"
    ensures p.zipDir == name + "/versions/" + datetime + "/zip-bundle"
    ensures p.zipBase == "nextclade_dataset_" + name + "_" + datetime
    ensures p.zipBundleUrl
            == "/" + name + "/versions/" + datetime + "/zip-bundle/nextclade_dataset_" + name + "_" + datetime + ".zip"
  {
    var versionsDir := name + "/versions";
    var filesDir := versionsDir + "/" + datetime + "/files";
    var zipDir := versionsDir + "/" + datetime + "/zip-bundle";
    var zipBase := "nextclade_dataset_" + name + "_" + datetime;
    var files := map t | t in declared :: "/" + filesDir + "/" + declared[t];
    FileUrlShape(name, datetime, declared);
    DirShape(name, datetime);
    ZipUrlShape(name, datetime);
    Paths(files, versionsDir, filesDir, zipDir, zipBase, "/" + zipDir + "/" + zipBase + ".zip")
  }

  // The three unfoldings below are proved apart from Layout, which keeps
  // Layout's own proof small.

  /** `files_dir` and `zip_dir` with `versions_dir` unfolded. */
  lemma DirShape(name: string, datetime: string)
    ensures name + "/versions" + "/" + datetime + "/files" == name + "/versions/" + datetime + "/files"
    ensures name + "/versions" + "/" + datetime + "/zip-bundle" == name + "/versions/" + datetime + "/zip-bundle"
  {
  }

  /** `zip_bundle_url` with `zip_dir` and `zip_base` unfolded. */
  lemma ZipUrlShape(name: string, datetime: string)
    ensures "/" + (name + "/versions" + "/" + datetime + "/zip-bundle") + "/"
            + ("nextclade_dataset_" + name + "_" + datetime) + ".zip"
         == "/" + name + "/versions/" + datetime + "/zip-bundle/nextclade_dataset_" + name + "_" + datetime + ".zip"
  {
  }

  /** `f"/{files_dir}/{filename}"` with `files_dir` unfolded. */
  lemma FileUrlShape(name: string, datetime: string, declared: map<string, string>)
    ensures forall t :: t in declared ==>
              "/" + (name + "/versions" + "/" + datetime + "/files") + "/" + declared[t]
              == "/" + name + "/versions/" + datetime + "/files/" + declared[t]
  {
  }

  /** Position of the first `/` in `s`, or `|s|` when there is none. */
  function FirstSlash(s: string): (k: nat)
    ensures k <= |s|
    ensures forall i :: 0 <= i < k ==> s[i] != '/'
    ensures k < |s| ==> s[k] == '/'
  {
    if |s| == 0 || s[0] == '/' then 0 else 1 + FirstSlash(s[1..])
  }

  /** What every URL of a version of dataset `name` starts with. */
  function VersionsUrlPrefix(name: string): string {
    "/" + name + "/versions/"
  }

  /** Reads a URL under `/{name}/versions/` back into its `datetime` segment
      and what follows that segment. */
  function SplitVersionUrl(name: string, url: string): Option<(string, string)> {
    var prefix := VersionsUrlPrefix(name);
    if |prefix| <= |url| && url[..|prefix|] == prefix then
      var rest := url[|prefix|..];
      var k := FirstSlash(rest);
      Some((rest[..k], rest[k..]))
    else None
  }

  /** Reads a public file URL back into its `datetime` and file name. */
  function ParseFileUrl(name: string, url: string): Option<(string, string)> {
    match SplitVersionUrl(name, url)
    case None => None
    case Some((datetime, rest)) =>
      if |rest| >= 7 && rest[..7] == "/files/" then Some((datetime, rest[7..])) else None
  }

  /** A URL built from a `/`-free datetime splits back at that datetime. */
  lemma SplitVersionUrlInverse(name: string, datetime: string, rest: string)
    requires '/' !in datetime
    requires |rest| > 0 && rest[0] == '/'
    ensures SplitVersionUrl(name, "/" + name + "/versions/" + datetime + rest) == Some((datetime, rest))
  {
    var url := "/" + name + "/versions/" + datetime + rest;
    var prefix := VersionsUrlPrefix(name);
    assert url == prefix + (datetime + rest);
    assert url[..|prefix|] == prefix;
    assert url[|prefix|..] == datetime + rest;
    var s := datetime + rest;
    assert forall i :: 0 <= i < |datetime| ==> s[i] == datetime[i] && s[i] != '/';
    assert s[|datetime|] == '/';
    assert FirstSlash(s) == |datetime|;
    assert (datetime + rest)[..|datetime|] == datetime;
    assert (datetime + rest)[|datetime|..] == rest;
  }

  /** Every file URL of a version reads back to that version's `datetime` and
      the declared file name, provided the datetime holds no `/`. */
  lemma FileUrlRoundTrip(dataset: Object, version: Object, fileType: string)
    requires GetPaths(dataset, version).Ok?
    requires fileType in version["files"].fields
    requires '/' !in version["datetime"].s
    ensures ParseFileUrl(dataset["name"].s, GetPaths(dataset, version).value.files[fileType])
         == Some((version["datetime"].s, version["files"].fields[fileType].s))
  {
    var name := dataset["name"].s;
    var datetime := version["datetime"].s;
    var filename := version["files"].fields[fileType].s;
    var rest := "/files/" + filename;
    assert GetPaths(dataset, version).value.files[fileType] == "/" + name + "/versions/" + datetime + rest;
    SplitVersionUrlInverse(name, datetime, rest);
    assert rest[..7] == "/files/";
    assert rest[7..] == filename;
  }

  /** The zip bundle URL of a version reads back to that version's `datetime`. */
  lemma ZipUrlDatetime(dataset: Object, version: Object)
    requires GetPaths(dataset, version).Ok?
    requires '/' !in version["datetime"].s
    ensures var split := SplitVersionUrl(dataset["name"].s, GetPaths(dataset, version).value.zipBundleUrl);
            split.Some? && split.value.0 == version["datetime"].s
  {
    var name := dataset["name"].s;
    var datetime := version["datetime"].s;
    var rest := "/zip-bundle/nextclade_dataset_" + name + "_" + datetime + ".zip";
    assert GetPaths(dataset, version).value.zipBundleUrl == "/" + name + "/versions/" + datetime + rest;
    SplitVersionUrlInverse(name, datetime, rest);
  }

  /** Two versions of one dataset with different `/`-free datetimes publish
      under disjoint URLs: no file URL and no zip URL is shared. */
  lemma DistinctVersionsDistinctUrls(dataset: Object, v1: Object, v2: Object)
    requires GetPaths(dataset, v1).Ok? && GetPaths(dataset, v2).Ok?
    requires '/' !in v1["datetime"].s && '/' !in v2["datetime"].s
    requires v1["datetime"].s != v2["datetime"].s
    ensures GetPaths(dataset, v1).value.files.Values !! GetPaths(dataset, v2).value.files.Values
    ensures GetPaths(dataset, v1).value.zipBundleUrl != GetPaths(dataset, v2).value.zipBundleUrl
  {
    var p1 := GetPaths(dataset, v1).value;
    var p2 := GetPaths(dataset, v2).value;
    forall u | u in p1.files.Values
      ensures u !in p2.files.Values
    {
      var t1 :| t1 in p1.files && p1.files[t1] == u;
      FileUrlRoundTrip(dataset, v1, t1);
      if u in p2.files.Values {
        var t2 :| t2 in p2.files && p2.files[t2] == u;
        FileUrlRoundTrip(dataset, v2, t2);
      }
    }
    ZipUrlDatetime(dataset, v1);
    ZipUrlDatetime(dataset, v2);
  }
}

=== FILE: versions.dfy ===
/**
 * The version list of one dataset: the metadata descriptors in discovery
 * order, tagged with their sort key, and the stable newest-first sort of
 * scripts/index.py:130 (`versions.sort(key=datetime, reverse=True)`).
 */
module Versions {
  import opened Json
  import Lex

  /** One discovered version descriptor: its position in discovery order,
      its `datetime` sort key and the descriptor itself. */
  datatype Version = Version(origin: nat, datetime: string, desc: Object)

  /** The key function `x["datetime"]` is defined on every descriptor. */
  predicate AllDated(metadata: seq<Object>) {
    forall i :: 0 <= i < |metadata| ==> HasString(metadata[i], "datetime")
  }

  /** `j` is the first position from `from` on whose descriptor has no string `datetime`. */
  predicate FirstUndated(metadata: seq<Object>, from: nat, j: nat) {
    && from <= j < |metadata|
    && !HasString(metadata[j], "datetime")
    && forall i :: from <= i < j ==> HasString(metadata[i], "datetime")
  }

  /** What evaluating the sort key on an undated descriptor raises. */
  function KeyError(desc: Object): Error {
    if "datetime" in desc then NotAString("datetime") else MissingKey("datetime")
  }

  /** The descriptors from position `from` on, paired with their sort keys.
      Python evaluates the key on every element before comparing any, so the
      first descriptor without a `datetime` raises. */
  function Discover(metadata: seq<Object>, from: nat): (r: Result<seq<Version>>)
    requires from <= |metadata|
    ensures r.Ok? <==> AllDated(metadata[from..])
    ensures r.Ok? ==> |r.value| == |metadata| - from
    ensures r.Ok? ==> forall k :: 0 <= k < |r.value| ==>
              r.value[k] == Version(from + k, metadata[from + k]["datetime"].s, metadata[from + k])
    ensures r.Err? ==> exists j: nat :: FirstUndated(metadata, from, j) && r.error == KeyError(metadata[j])
    decreases |metadata| - from
  {
    if from == |metadata| then Ok([])
    else
      var dt :- LookupString(metadata[from], "datetime");
      var rest :- Discover(metadata, from + 1);
      assert forall k :: 1 <= k < |metadata| - from ==> metadata[from..][k] == metadata[from + 1..][k - 1];
      Ok([Version(from, dt, metadata[from])] + rest)
  }

  /** Newest first: each `datetime` is at least every later one. */
  predicate NewestFirst(s: seq<Version>) {
    forall i, j :: 0 <= i < j < |s| ==> Lex.LessEq(s[j].datetime, s[i].datetime)
  }

  /** The versions of `s` with `datetime == key`, in their order in `s`. */
  function WithDatetime(s: seq<Version>, key: string): seq<Version>
  {
    if |s| == 0 then []
    else if s[0].datetime == key then [s[0]] + WithDatetime(s[1..], key)
    else WithDatetime(s[1..], key)
  }

  /** Places `x` after every version of `s` at least as new as it: a later
      element of the input goes after earlier ones with an equal key, which is
      what keeps Python's `sort(reverse=True)` stable. */
  function Insert(x: Version, s: seq<Version>): (r: seq<Version>)
    requires NewestFirst(s)
    ensures multiset(r) == multiset(s) + multiset{x}
    ensures NewestFirst(r)
    decreases |s|
  {
    if |s| == 0 then [x]
    else if Lex.LessEq(x.datetime, s[0].datetime) then
      var t := Insert(x, s[1..]);
      BoundedBelowHead(x, s, t);
      [s[0]] + t
    else
      AboveHead(x, s);
      [x] + s
  }

  /** Whatever `x` is inserted into the tail of `s` below its head stays
      no newer than that head. */
  lemma BoundedBelowHead(x: Version, s: seq<Version>, t: seq<Version>)
    requires NewestFirst(s) && |s| > 0 && NewestFirst(t)
    requires Lex.LessEq(x.datetime, s[0].datetime)
    requires multiset(t) == multiset(s[1..]) + multiset{x}
    ensures multiset([s[0]] + t) == multiset(s) + multiset{x}
    ensures NewestFirst([s[0]] + t)
  {
    assert s == [s[0]] + s[1..];
    forall i | 0 <= i < |t|
      ensures Lex.LessEq(t[i].datetime, s[0].datetime)
    {
      assert t[i] in multiset(t);
      if t[i] != x {
        assert t[i] in multiset(s[1..]);
        var k :| 0 <= k < |s[1..]| && s[1..][k] == t[i];
        assert s[k + 1] == t[i];
      }
    }
    var r := [s[0]] + t;
    forall i, j | 0 <= i < j < |r|
      ensures Lex.LessEq(r[j].datetime, r[i].datetime)
    {
      if i > 0 {
        assert r[i] == t[i - 1] && r[j] == t[j - 1];
      } else {
        assert r[j] == t[j - 1];
      }
    }
  }

  /** A version strictly newer than the head of `s` can go first. */
  lemma AboveHead(x: Version, s: seq<Version>)
    requires NewestFirst(s) && |s| > 0
    requires !Lex.LessEq(x.datetime, s[0].datetime)
    ensures NewestFirst([x] + s)
  {
    Lex.Total(x.datetime, s[0].datetime);
    var r := [x] + s;
    forall i, j | 0 <= i < j < |r|
      ensures Lex.LessEq(r[j].datetime, r[i].datetime)
    {
      assert r[j] == s[j - 1];
      if i == 0 {
        if j > 1 {
          Lex.Transitive(s[j - 1].datetime, s[0].datetime, x.datetime);
        }
      } else {
        assert r[i] == s[i - 1];
      }
    }
  }

  /** `sorted(versions, key=datetime, reverse=True)`, by insertion of each
      element in discovery order. */
  function SortNewestFirst(s: seq<Version>): (r: seq<Version>)
    ensures multiset(r) == multiset(s)
    ensures NewestFirst(r)
    decreases |s|
  {
    if |s| == 0 then []
    else
      assert s == s[..|s| - 1] + [s[|s| - 1]];
      Insert(s[|s| - 1], SortNewestFirst(s[..|s| - 1]))
  }

  /** Filtering by a key distributes over concatenation. */
  lemma {:induction false} WithDatetimeAppend(a: seq<Version>, b: seq<Version>, key: string)
    ensures WithDatetime(a + b, key) == WithDatetime(a, key) + WithDatetime(b, key)
    decreases |a|
  {
    if |a| > 0 {
      assert (a + b)[0] == a[0];
      assert (a + b)[1..] == a[1..] + b;
      WithDatetimeAppend(a[1..], b, key);
      if a[0].datetime == key {
        assert [a[0]] + (WithDatetime(a[1..], key) + WithDatetime(b, key))
            == ([a[0]] + WithDatetime(a[1..], key)) + WithDatetime(b, key);
      }
    } else {
      assert a + b == b;
    }
  }

  /** No version carries `key`, so filtering by it leaves nothing. */
  lemma {:induction false} WithDatetimeNone(s: seq<Version>, key: string)
    requires forall i :: 0 <= i < |s| ==> s[i].datetime != key
    ensures WithDatetime(s, key) == []
    decreases |s|
  {
    if |s| > 0 {
      WithDatetimeNone(s[1..], key);
    }
  }

  /** A newest-first list stays newest-first without its head. */
  lemma NewestFirstTail(s: seq<Version>)
    requires NewestFirst(s) && |s| > 0
    ensures NewestFirst(s[1..])
  {
    forall i, j | 0 <= i < j < |s| - 1
      ensures Lex.LessEq(s[1..][j].datetime, s[1..][i].datetime)
    {
      assert s[1..][j] == s[j + 1] && s[1..][i] == s[i + 1];
    }
  }

  /** Filtering a list with a known head. */
  lemma WithDatetimeCons(v: Version, t: seq<Version>, key: string)
    ensures WithDatetime([v] + t, key)
         == (if v.datetime == key then [v] + WithDatetime(t, key) else WithDatetime(t, key))
  {
    assert ([v] + t)[0] == v;
    assert ([v] + t)[1..] == t;
  }

  /** A common head keeps a filtered difference. */
  lemma ConsFilter(v: Version, u: seq<Version>, w: seq<Version>, key: string, tail: seq<Version>)
    requires WithDatetime(u, key) == WithDatetime(w, key) + tail
    ensures WithDatetime([v] + u, key) == WithDatetime([v] + w, key) + tail
  {
    WithDatetimeCons(v, u, key);
    WithDatetimeCons(v, w, key);
    if v.datetime == key {
      assert [v] + (WithDatetime(w, key) + tail) == ([v] + WithDatetime(w, key)) + tail;
    }
  }

  /** Inserting `x` puts it after every version already holding its key. */
  lemma {:induction false} InsertStable(x: Version, s: seq<Version>, key: string)
    requires NewestFirst(s)
    ensures WithDatetime(Insert(x, s), key)
         == WithDatetime(s, key) + (if x.datetime == key then [x] else [])
    decreases |s|
  {
    var tail := if x.datetime == key then [x] else [];
    if |s| == 0 {
      assert Insert(x, s) == [x];
      WithDatetimeCons(x, [], key);
    } else if Lex.LessEq(x.datetime, s[0].datetime) {
      NewestFirstTail(s);
      var t := Insert(x, s[1..]);
      assert Insert(x, s) == [s[0]] + t;
      InsertStable(x, s[1..], key);
      ConsFilter(s[0], t, s[1..], key, tail);
      assert [s[0]] + s[1..] == s;
    } else {
      assert Insert(x, s) == [x] + s;
      WithDatetimeCons(x, s, key);
      if x.datetime == key {
        forall i | 0 <= i < |s|
          ensures s[i].datetime != key
        {
        }
        WithDatetimeNone(s, key);
      }
    }
  }

  /** The sort is stable: for every key, the versions holding it appear in
      the sorted list in the same order as in discovery order. */
  lemma {:induction false} SortStable(s: seq<Version>, key: string)
    ensures WithDatetime(SortNewestFirst(s), key) == WithDatetime(s, key)
    decreases |s|
  {
    if |s| > 0 {
      var init := s[..|s| - 1];
      var last := s[|s| - 1];
      var sortedInit := SortNewestFirst(init);
      var extra := if last.datetime == key then [last] else [];
      calc {
        WithDatetime(SortNewestFirst(s), key);
        WithDatetime(Insert(last, sortedInit), key);
        { InsertStable(last, sortedInit, key); }
        WithDatetime(sortedInit, key) + extra;
        { SortStable(init, key); }
        WithDatetime(init, key) + extra;
        { WithDatetimeCons(last, [], key); assert [last] + [] == [last]; }
        WithDatetime(init, key) + WithDatetime([last], key);
        { WithDatetimeAppend(init, [last], key); }
        WithDatetime(init + [last], key);
        { assert s == init + [last]; }
        WithDatetime(s, key);
      }
    }
  }

  /** The head of a newest-first list is at least as new as every element. */
  lemma NewestAtHead(s: seq<Version>)
    requires NewestFirst(s) && |s| > 0
    ensures forall i :: 0 <= i < |s| ==> Lex.LessEq(s[i].datetime, s[0].datetime)
  {
    forall i | 0 <= i < |s|
      ensures Lex.LessEq(s[i].datetime, s[0].datetime)
    {
      if i == 0 {
        Lex.Reflexive(s[0].datetime);
      }
    }
  }

  /** No two versions share a discovery position: each one is its own
      descriptor object, as every `json.load` returns a fresh dict. */
  predicate DistinctOrigins(s: seq<Version>) {
    forall a, b :: 0 <= a < b < |s| ==> s[a].origin != s[b].origin
  }

  /** An element occurring once in `s` (by distinct origins) is counted once. */
  lemma CountOnce(s: seq<Version>, x: nat)
    requires DistinctOrigins(s) && x < |s|
    ensures multiset(s)[s[x]] == 1
  {
    assert s == s[..x] + [s[x]] + s[x + 1..];
    assert forall y :: 0 <= y < x ==> s[..x][y] != s[x];
    var suffix := s[x + 1..];
    assert forall y :: 0 <= y < |suffix| ==> suffix[y] != s[x];
  }

  /** An element at two positions of `t` is counted at least twice. */
  lemma CountTwice(t: seq<Version>, a: nat, b: nat)
    requires a < b < |t| && t[a] == t[b]
    ensures multiset(t)[t[a]] >= 2
  {
    assert t == t[..a] + [t[a]] + t[a + 1..b] + [t[b]] + t[b + 1..];
  }

  /** Reordering keeps the discovery positions distinct. */
  lemma PermutationDistinct(s: seq<Version>, t: seq<Version>)
    requires DistinctOrigins(s) && multiset(t) == multiset(s)
    ensures DistinctOrigins(t)
  {
    forall a, b | 0 <= a < b < |t|
      ensures t[a].origin != t[b].origin
    {
      if t[a].origin == t[b].origin {
        assert t[a] in multiset(s) && t[b] in multiset(s);
        var x :| 0 <= x < |s| && s[x] == t[a];
        var y :| 0 <= y < |s| && s[y] == t[b];
        assert x == y;
        CountOnce(s, x);
        CountTwice(t, a, b);
      }
    }
  }

  /** The descriptors of a version list, in its order. */
  function Descs(s: seq<Version>): (r: seq<Object>)
    ensures |r| == |s|
    ensures forall k :: 0 <= k < |s| ==> r[k] == s[k].desc
  {
    seq(|s|, k requires 0 <= k < |s| => s[k].desc)
  }

  /** Taking descriptors distributes over concatenation. */
  lemma DescsConcat(u: seq<Version>, v: seq<Version>)
    ensures Descs(u + v) == Descs(u) + Descs(v)
  {
  }

  /** Taking the same element out of two equal multisets of sequences. */
  lemma RemoveMatching(a: seq<Version>, b: seq<Version>, j: nat)
    requires multiset(a) == multiset(b) && |a| > 0 && j < |b| && b[j] == a[0]
    ensures multiset(a[1..]) == multiset(b[..j] + b[j + 1..])
  {
    assert a == [a[0]] + a[1..];
    assert b == b[..j] + [b[j]] + b[j + 1..];
    var m := multiset(b[..j] + b[j + 1..]);
    assert multiset(b) == m + multiset{a[0]};
    assert multiset(a) == multiset(a[1..]) + multiset{a[0]};
    assert multiset(a[1..]) == multiset(a) - multiset{a[0]};
    assert m == multiset(b) - multiset{a[0]};
  }

  /** Reordering the versions reorders their descriptors the same way. */
  lemma {:induction false} DescsPermutation(a: seq<Version>, b: seq<Version>)
    requires multiset(a) == multiset(b)
    ensures multiset(Descs(a)) == multiset(Descs(b))
    decreases |a|
  {
    if |a| == 0 {
      assert |multiset(b)| == 0;
    } else {
      assert a[0] in multiset(b);
      var j :| 0 <= j < |b| && b[j] == a[0];
      RemoveMatching(a, b, j);
      DescsPermutation(a[1..], b[..j] + b[j + 1..]);
      DescsHead(a);
      DescsWithout(b, j);
    }
  }

  /** The descriptor of the head, counted apart from the rest. */
  lemma DescsHead(a: seq<Version>)
    requires |a| > 0
    ensures multiset(Descs(a)) == multiset(Descs(a[1..])) + multiset{a[0].desc}
  {
    assert a == [a[0]] + a[1..];
    DescsConcat([a[0]], a[1..]);
    assert Descs([a[0]]) == [a[0].desc];
  }

  /** The descriptor of the element at `j`, counted apart from the rest. */
  lemma DescsWithout(b: seq<Version>, j: nat)
    requires j < |b|
    ensures multiset(Descs(b)) == multiset(Descs(b[..j] + b[j + 1..])) + multiset{b[j].desc}
  {
    var left, right := b[..j], b[j + 1..];
    assert b == left + ([b[j]] + right);
    DescsConcat(left, [b[j]] + right);
    DescsConcat([b[j]], right);
    DescsConcat(left, right);
    assert Descs([b[j]]) == [b[j].desc];
  }

  /** `vs` is `metadata` in discovery order, each descriptor tagged with its
      position and its sort key. */
  predicate Numbered(vs: seq<Version>, metadata: seq<Object>) {
    && |vs| == |metadata|
    && forall k :: 0 <= k < |vs| ==>
         && vs[k].origin == k && vs[k].desc == metadata[k]
         && "datetime" in metadata[k] && metadata[k]["datetime"] == Str(vs[k].datetime)
  }

  /** Any rearrangement of a numbered list holds each descriptor exactly once,
      tagged with the position it was read at. */
  lemma RearrangedFacts(vs: seq<Version>, s: seq<Version>, metadata: seq<Object>)
    requires Numbered(vs, metadata) && multiset(s) == multiset(vs)
    ensures |s| == |metadata|
    ensures DistinctOrigins(s)
    ensures multiset(Descs(s)) == multiset(metadata)
    ensures forall k :: 0 <= k < |s| ==>
              && s[k].origin < |metadata|
              && s[k].desc == metadata[s[k].origin]
              && "datetime" in s[k].desc && s[k].desc["datetime"] == Str(s[k].datetime)
    ensures forall j :: 0 <= j < |metadata| ==> HasOrigin(s, j)
  {
    assert |s| == |multiset(s)| == |multiset(vs)| == |vs|;
    assert DistinctOrigins(vs);
    PermutationDistinct(vs, s);
    forall k | 0 <= k < |s|
      ensures && s[k].origin < |metadata|
              && s[k].desc == metadata[s[k].origin]
              && "datetime" in s[k].desc && s[k].desc["datetime"] == Str(s[k].datetime)
    {
      assert s[k] in multiset(vs);
      var j :| 0 <= j < |vs| && vs[j] == s[k];
    }
    EveryOriginPresent(vs, s, metadata);
    assert Descs(vs) == metadata;
    DescsPermutation(s, vs);
  }

  /** Some version of `s` was read at position `j`. */
  predicate HasOrigin(s: seq<Version>, j: nat) {
    exists k :: 0 <= k < |s| && s[k].origin == j
  }

  /** Each position of discovery order survives a rearrangement. */
  lemma EveryOriginPresent(vs: seq<Version>, s: seq<Version>, metadata: seq<Object>)
    requires Numbered(vs, metadata) && multiset(s) == multiset(vs)
    ensures forall j :: 0 <= j < |metadata| ==> HasOrigin(s, j)
  {
    forall j | 0 <= j < |metadata|
      ensures HasOrigin(s, j)
    {
      var k := OriginAt(vs, s, metadata, j);
    }
  }

  /** Where the descriptor read at position `j` went. */
  lemma OriginAt(vs: seq<Version>, s: seq<Version>, metadata: seq<Object>, j: nat) returns (k: nat)
    requires Numbered(vs, metadata) && multiset(s) == multiset(vs) && j < |metadata|
    ensures k < |s| && s[k].desc == metadata[j] && s[k].origin == j
  {
    assert vs[j] in multiset(s);
    k :| 0 <= k < |s| && s[k] == vs[j];
  }

  /** Versions with equal keys keep their relative discovery order. */
  predicate StableOrder(s: seq<Version>) {
    forall a, b :: 0 <= a < b < |s| ==> s[a].datetime != s[b].datetime || s[a].origin < s[b].origin
  }

  /** A stably ordered list stays so without its head. */
  lemma StableOrderTail(s: seq<Version>)
    requires StableOrder(s) && |s| > 0
    ensures StableOrder(s[1..])
  {
    forall a, b | 0 <= a < b < |s| - 1
      ensures s[1..][a].datetime != s[1..][b].datetime || s[1..][a].origin < s[1..][b].origin
    {
      assert s[1..][a] == s[a + 1] && s[1..][b] == s[b + 1];
    }
  }

  /** The head of a stably ordered list stays ahead, in discovery order, of
      every element of its tail with `x` inserted, `x` being read last. */
  lemma HeadBeforeRest(x: Version, s: seq<Version>, t: seq<Version>, i: nat)
    requires StableOrder(s) && |s| > 0
    requires forall k :: 0 <= k < |s| ==> s[k].origin < x.origin
    requires multiset(t) == multiset(s[1..]) + multiset{x} && i < |t|
    ensures s[0].datetime != t[i].datetime || s[0].origin < t[i].origin
  {
    assert t[i] in multiset(t);
    if t[i] != x {
      assert t[i] in multiset(s[1..]);
      var j :| 0 <= j < |s[1..]| && s[1..][j] == t[i];
      assert s[j + 1] == t[i];
    }
  }

  /** Inserting a version read after every version of `s` keeps equal keys
      in discovery order. */
  lemma {:induction false} InsertKeepsOrder(x: Version, s: seq<Version>)
    requires NewestFirst(s) && StableOrder(s)
    requires forall k :: 0 <= k < |s| ==> s[k].origin < x.origin
    ensures StableOrder(Insert(x, s))
    decreases |s|
  {
    if |s| == 0 {
      assert Insert(x, s) == [x];
    } else if Lex.LessEq(x.datetime, s[0].datetime) {
      NewestFirstTail(s);
      StableOrderTail(s);
      var t := Insert(x, s[1..]);
      InsertKeepsOrder(x, s[1..]);
      var r := [s[0]] + t;
      assert Insert(x, s) == r;
      forall a, b | 0 <= a < b < |r|
        ensures r[a].datetime != r[b].datetime || r[a].origin < r[b].origin
      {
        assert r[b] == t[b - 1];
        if a == 0 {
          HeadBeforeRest(x, s, t, b - 1);
        } else {
          assert r[a] == t[a - 1];
        }
      }
    } else {
      var r := [x] + s;
      assert Insert(x, s) == r;
      NewestAtHead(s);
      forall a, b | 0 <= a < b < |r|
        ensures r[a].datetime != r[b].datetime || r[a].origin < r[b].origin
      {
        assert r[b] == s[b - 1];
        if a > 0 {
          assert r[a] == s[a - 1];
        }
      }
    }
  }

  /** The sort keeps versions with equal keys in the order they were read:
      the stability Python's `list.sort` guarantees, also with `reverse=True`. */
  lemma {:induction false} SortKeepsOrder(s: seq<Version>)
    requires forall a, b :: 0 <= a < b < |s| ==> s[a].origin < s[b].origin
    ensures StableOrder(SortNewestFirst(s))
    decreases |s|
  {
    if |s| > 0 {
      var init := s[..|s| - 1];
      var last := s[|s| - 1];
      SortKeepsOrder(init);
      var t := SortNewestFirst(init);
      forall k | 0 <= k < |t|
        ensures t[k].origin < last.origin
      {
        assert t[k] in multiset(init);
        var j :| 0 <= j < |init| && init[j] == t[k];
      }
      InsertKeepsOrder(last, t);
    }
  }

  /** `s` holds the descriptors of `metadata` newest first, each once, tagged
      with the position it was read at, equal keys in reading order. */
  predicate SortedFrom(s: seq<Version>, metadata: seq<Object>) {
    && |s| == |metadata|
    && NewestFirst(s)
    && StableOrder(s)
    && DistinctOrigins(s)
    && multiset(Descs(s)) == multiset(metadata)
    && (forall k :: 0 <= k < |s| ==>
          && s[k].origin < |metadata|
          && s[k].desc == metadata[s[k].origin]
          && "datetime" in s[k].desc && s[k].desc["datetime"] == Str(s[k].datetime))
    && (forall j :: 0 <= j < |metadata| ==> HasOrigin(s, j))
  }

  /** Sorting the discovered list yields a list sorted from the descriptors. */
  lemma SortedFromDiscovery(vs: seq<Version>, metadata: seq<Object>)
    requires Numbered(vs, metadata)
    ensures SortedFrom(SortNewestFirst(vs), metadata)
  {
    RearrangedFacts(vs, SortNewestFirst(vs), metadata);
    SortKeepsOrder(vs);
  }
}
